=== FILE: README.md ===
# Secure-Bridge: a Dafny model of the request/reply decision logic

Secure-Bridge connects two services over an encrypted ZeroMQ request/reply socket pair. Each
request carries a JWT. The server validates that token, then dispatches the named operation to
a registered handler and sends one reply record back. The repository implements the bridge twice:
`secure_bridge.py` (Python) and `secureBridge.ts` (TypeScript).

This project models the sequential logic that the two files own:
- the operation registry, where the last registration wins;
- token validation, and how each file maps token errors to messages;
- secret rotation, as a state update;
- serialization-format dispatch;
- the reply decision of one server cycle, and the server loop over a stream of requests;
- the Python client's retry loop, with exponential backoff, jitter and a cap;
- the TypeScript client path through `sendRequest` and `startClient`.

Library calls enter the model as inputs:
- JWT verification is a `Verifier`: a function from (secret, token) to Valid(claims) / Expired / Invalid. Each bridge has its own, because PyJWT and jsonwebtoken are different libraries.
- The json/msgpack/protobuf libraries are a `Codec` of encode and decode functions, again one per bridge when the two are compared.
- A socket round trip is an `Exchange`: reply bytes or a transport error.
- `random.uniform(0, 1)` is a `Jitter` in [0, 1]. The call itself draws from [0, 1), so this is a superset.
- The opossum breaker's admission is a `Gate`: admit, or reject with a message.
- Handlers are total functions from a JSON value to a returned value or a raised message.

Modules:
- `Results`: the `Result`/`Option` wrappers. An exception becomes `Err(message)`.
- `Values`: decoded JSON values, `dict.get`, the reply record and its JSON object, and what one server receive yields.
- `Registry`: handlers and the name → handler map.
- `Token`: the verifier oracle.
- `Serializer`: formats, their names, the shared `serialize` dispatch, and the codec and transport oracles.
- `PyBridge`: the Python server side.
- `PyClient`: the Python `start_client`.
- `TsBridge`: the TypeScript bridge.
- `Comparison`: lemmas relating the two implementations, plus the end-to-end "sum" scenario.

## Model

| member | source | states |
|---|---|---|
| `Values.ReplyObject` | secure_bridge.py:163-172 | a reply is sent as an object whose `status` is "success" exactly for a success and "error" exactly for an error, with just a `data` or just a `message` field beside it, and reading the object back gives the reply |
| `Values.ReplyObjectInjective` | secureBridge.ts:137-148 | two different replies are never sent as the same object |
| `Registry.Register` | secure_bridge.py:110-111 | the name maps to the new handler, the key set grows by just that name, every other name keeps its handler |
| `Registry.Lookup` | secureBridge.ts:134 | a handler is found exactly when the name is registered, and it is the registered one |
| `Registry.LookupAfterRegister` | secureBridge.ts:72-74 | after registering under `op`, looking up `op` finds the new handler; any other name finds what it found before |
| `Registry.RegisterOverwrites` | secure_bridge.py:110-111 | registering twice under one name equals registering only the second handler (last write wins) |
| `Serializer.ParseFormat` | secure_bridge.py:121-144 | exactly "protobuf", "json" and "msgpack" are accepted, and each selects the format of that name; any other name fails with "Unsupported serialization format" |
| `Serializer.ParseFormatName` | secure_bridge.py:122-128 | format names and formats correspond one to one |
| `Serializer.Serialize` | secure_bridge.py:121-129 | corrected protobuf branch (the as-written one is `PyBridge.SerializeAsWritten`): an unknown format fails with the unsupported-format error; a known one yields exactly its encoder's outcome (secureBridge.ts:84-96 dispatches the same way) |
| `PyBridge.NewBridge` | secure_bridge.py:60-71 | a new bridge has an empty handler table, the configured secret, and the construction time as its last rotation |
| `PyBridge.RegisterHandler` | secure_bridge.py:110-111 | the operation maps to the new handler, other registrations are kept, and the secret and rotation time are untouched |
| `PyBridge.ValidateJwt` | secure_bridge.py:113-119 | a token is accepted iff the verifier says valid, and the result is then its claims; expired gives "JWT expired"; any other failure gives "Invalid JWT" |
| `PyBridge.RotateSecret` | secure_bridge.py:93-97 | one rotation step installs the new secret and the rotation time, and keeps the handler table |
| `PyBridge.Deserialize` | secure_bridge.py:131-144 | corrected protobuf branch (the as-written one is `PyBridge.DeserializeAsWritten`): an unknown format fails; a decoded value is returned; a protobuf DecodeError is re-raised with the "Protobuf deserialization error: " prefix; other library errors pass through unchanged |
| `PyBridge.SerializeAsWritten` | secure_bridge.py:121-129 | as written, the protobuf branch always fails, and every other format behaves like the corrected dispatch |
| `PyBridge.DeserializeAsWritten` | secure_bridge.py:131-144 | as written, the protobuf branch always fails, and every other format behaves like the corrected dispatch |
| `PyBridge.ProtobufSerializeAlwaysFails` | secure_bridge.py:122-123 | even when the protobuf encoder would succeed, the as-written branch fails and the corrected one returns the encoding |
| `PyBridge.ProtobufPrefixUnreachable` | secure_bridge.py:132-138 | on a malformed protobuf payload, the as-written branch raises the NameError, while the corrected one raises the prefixed error |
| `PyBridge.Dispatch` | secure_bridge.py:159-166 | a registered operation runs its handler on the request data, and the outcome becomes the reply; a list or dict operation raises "unhashable type"; anything else gets "Unknown operation"; success iff registered and the handler returned |
| `PyBridge.ServeCycle` | secure_bridge.py:153-172 | one reply per received message. A decoder error and a non-object message get error replies. An expired token gets "JWT expired" and another bad token gets "Invalid JWT", before any lookup. A valid token leads to dispatch. The reply is a success iff the token is valid, the operation is registered and its handler returned |
| `PyBridge.TokenFailureIgnoresHandlers` | secure_bridge.py:157-169 | when the token fails, the reply is an error and is the same for any handler table, so no handler is consulted |
| `PyBridge.RotationRevokesOldTokens` | secure_bridge.py:93-119 | a token valid under the old secret but not the new one reached dispatch before rotation and gets "Invalid JWT" after it |
| `PyBridge.RotationKeepsRegistrations` | secure_bridge.py:93-97 | after rotation, a request valid under the new secret is dispatched to the same handlers |
| `PyBridge.ServeLoop` | secure_bridge.py:153-172 | corrected cycle, without the `start_time` read at line 164: the loop answers every message in the stream, in order, with exactly the one reply its cycle decides. As written, the first successful request ends the loop instead (see Findings) |
| `PyBridge.ServeCycleAsWritten` | secure_bridge.py:161-172 | as written, a cycle first sends its decided reply, and issues a second send exactly when that reply is a success |
| `PyBridge.StartTimeDoubleReply` | secure_bridge.py:163-172 | as written, every successful request is followed by a second send, an error reply "name 'start_time' is not defined" |
| `PyClient.BackoffDelay` | secure_bridge.py:187 | the delay is exactly `min(2^k + jitter, 10)`: at most both, and equal to one of them; so it is at least `2^k` unless it is the cap |
| `PyClient.BackoffMonotone` | secure_bridge.py:186-189 | a later failed attempt never gets a shorter delay than an earlier one, whatever the two jitters |
| `PyClient.CapUnreached` | secure_bridge.py:180-187 | within the three attempts the cap never applies: each delay is `2^k + jitter`, at most 5 s |
| `PyClient.Attempt` | secure_bridge.py:181-186 | an unsupported format fails the attempt before the transport is used; with the as-written protobuf branches a protobuf attempt always fails; once the request serialized, a transport error fails with its own message and a reply yields exactly what the build's `deserialize` makes of it; for json and msgpack both builds behave alike |
| `PyClient.StartClient` | secure_bridge.py:174-190 | 1 to 3 attempts, every one before the last failed. The result is the last attempt's decoded reply if it succeeded; otherwise all 3 failed and the result is the "Max retries exceeded" error object. There is one delay per failed attempt, the last included: delay k is `min(2^k + jitter_k, 10)`, lies between `2^k` and 10, and delays never decrease. An unsupported format, and with the as-written branches also "protobuf", always exhausts the retries |
| `TsBridge.NewBridge` | secureBridge.ts:51-70 | as-written construction: an empty instance handler map whatever the class map holds, the configured secret, no client socket, and the process-wide counter at the value it already had |
| `TsBridge.BridgeHandler` | secureBridge.ts:41-48 | the decorator creates the class-level map on first use and sets the operation in it, keeping earlier class entries |
| `TsBridge.RegisterHandler` | secureBridge.ts:72-74 | `Map.set`: last registration wins, other entries are kept, and the counter, secret and socket state are untouched |
| `TsBridge.ValidateJwt` | secureBridge.ts:76-82 | accepts exactly the tokens the verifier accepts, with their payload; every failure, expiry included, is "Invalid JWT" |
| `TsBridge.Deserialize` | secureBridge.ts:98-110 | an unknown format fails with the unsupported-format error; a known format yields its decoder's value, or its error message unchanged |
| `TsBridge.Dispatch` | secureBridge.ts:134-142 | a registered operation's handler outcome is the reply; anything else is "Unknown operation"; success iff registered and the handler returned |
| `TsBridge.ServeCycle` | secureBridge.ts:126-150 | the counter grows by one iff the token verified, and nothing else in the state changes. A parse error or a null message gets an error. A bad token gets "Invalid JWT". A verified token leads to dispatch |
| `TsBridge.TokenFailureIgnoresHandlers` | secureBridge.ts:129-133 | when the token fails, the reply does not depend on the handler table and the state is left exactly as it was |
| `TsBridge.AuthorizedCount` | secureBridge.ts:130-133 | the number of verified messages among the first `n` is at most `n`, and equals `n` exactly when every one of them verified |
| `TsBridge.NoAuthorizedNoCount` | secureBridge.ts:129-133 | a prefix of a stream in which no token verifies leaves the request counter unchanged, whatever follows it |
| `TsBridge.ServeLoop` | secureBridge.ts:126-150 | one reply per message, each the reply its cycle decides. The counter grows by exactly the number of messages whose token verified. Handlers, secret and socket state are kept |
| `TsBridge.SendRequest` | secureBridge.ts:153-159 | without a client socket it fails with "Client socket not initialized". With one, a serialization error (the unsupported format included) surfaces unchanged; so does a transport error. A reply yields exactly what `deserialize` makes of it, its value or its error message |
| `TsBridge.StartClient` | secureBridge.ts:161-176 | the socket is connected first. A breaker rejection becomes `{status: "error", message}`, and so does a request failure. A successful request returns its decoded reply |
| `TsBridge.StartClientIgnoresPriorSocket` | secureBridge.ts:154-171 | the uninitialized-socket guard never fires on the `startClient` path; with an admitted, serializable request and a reply, the outcome is the decoded reply or its error object |
| `TsBridge.DecoratedOperationUnknown` | secureBridge.ts:41-53 | an operation set by the decorator is still answered "Unknown operation" by a new instance, even with a valid token |
| `TsBridge.NewBridgeFromClass` | secureBridge.ts:53 | corrected construction: the instance map starts as the class map (empty when there is none), the process-wide counter keeps the value it had, and there is no client socket |
| `TsBridge.DecoratedOperationDispatched` | secureBridge.ts:112-136 | with the class map copied, a decorated operation is dispatched to its method |
| `Comparison.ValidationDiffersOnlyOnExpiry` | secureBridge.ts:76-82 | given library verdicts that agree on the token, both validators accept the same tokens with the same claims; on rejection TypeScript always says "Invalid JWT", while Python says "JWT expired" exactly for expired tokens |
| `Comparison.ServersAgreeOnObjectRequests` | secureBridge.ts:126-150 | given library verdicts that agree on the token, both servers with the same handlers and secret give an object request (whose operation is not a list or dict) the same reply, except that an expired token is "JWT expired" in Python and "Invalid JWT" in TypeScript |
| `Comparison.AlgorithmMismatchSplitsServers` | secureBridge.ts:76-79 | a token only jsonwebtoken accepts (PyJWT is limited to HS256 at secure_bridge.py:115) is answered "Invalid JWT" by Python, and dispatched and counted by TypeScript |
| `Comparison.DeserializersAgreeOutsideProtobufErrors` | secureBridge.ts:98-110 | given decoders that agree on the payload, both deserializers agree except on a malformed protobuf payload, which only Python prefixes |
| `Comparison.SumScenario` | test_bridge.py:25-38 | for the script's "sum" request: a token the library rejects for any reason other than expiry, like the script's "test_token", is answered "Invalid JWT" by both servers, TypeScript leaving its counter unchanged; an expired token is "JWT expired" in Python. For a token the library accepts, the model derives `{"status": "success", "data": {"result": 8}}`, which the script does not state, and TypeScript counts the request once |

## Left out

- Transport: ZeroMQ sockets, CURVE keys, `ThreadAuthenticator`, binding and connecting. This is network I/O. A receive is an `Inbound` value and a client round trip is an `Exchange` value.
- Key handling: Z85 decoding and encoding, `generate_curve_keypair`, RSA key generation and `print_keys`. These are library calls and diagnostics.
- JWT cryptography: HS256 signing and verification belong to PyJWT and jsonwebtoken. They are the `Verifier` oracle. Token issuing is not in either file.
- Codec internals: the json, msgpack and protobuf encodings are libraries, so no round-trip law is claimed. In secureBridge.ts:86 and :100 `BridgeMessage` is undefined too, so the shipped TypeScript protobuf entries would always throw a ReferenceError. The codec oracle's protobuf entries stand for that.
- Circuit breakers: the `circuitbreaker` and `opossum` libraries are not part of this model. In Python, the `with self.circuit_breaker:` gate around each cycle is assumed to admit every cycle; its failure counting and open state are not modelled. In TypeScript, the breaker's decision is the `Gate` input.
- Observability and web surfaces: Prometheus histograms, FastAPI and express endpoints, swagger and logging. The TypeScript request counter is modelled as one total, without its per-operation labels.
- Async scheduling: sleeps, the hourly wake-up of the rotation task, `init_jwt_rotation` and `shutdown` are not modelled. The client's sleeps appear only as the delays it takes. Rotation is one state step, and a serve loop runs under one fixed bridge state, with no rotation interleaved. That matches the code: `start_server` is a coroutine whose blocking `recv_json` (secure_bridge.py:156) never yields to the event loop, so the rotation task (secure_bridge.py:93-98) cannot run while it serves on the same loop.
- `PyBridge.ServeCycleAsWritten`: records the sends a cycle issues, not how the socket reacts to the second one. A refused send that ends `start_server` is transport behaviour and is not modelled.
- Server send failures: a handler result that cannot be sent (for example, not JSON-serializable) is not modelled, because modelled handlers return JSON values.
- TypeScript `undefined` is modelled as `Null`, the same as JSON `null`. A thrown value that is not an `Error` (so has no `message`) is not modelled.
- `TsBridge.ServeCycle`: the error text for a `null` message is V8's wording for reading a property of `null`. Other engines word it differently.
- `Comparison.SumHandler`: exact only for integer operands. Other inputs raise a placeholder message, not Python's KeyError or TypeError text. This is a scenario handler, not source code under model.
- `PyClient.StartClient`: `start_client` retries every exception, including an unsupported format. A delay is also slept after the third failure, before "Max retries exceeded" is returned. `Jitter` is [0, 1], a harmless superset of the [0, 1) that `random.uniform(0, 1)` draws from.
- `PyBridge.Dispatch`: a list or dict operation makes the membership test at secure_bridge.py:161 raise "unhashable type", so it is not answered "Unknown operation".
- `PyBridge.ServeLoop`: models the corrected cycle. As written, the second send after a success (secure_bridge.py:172) is refused by the request/reply socket, and that error leaves `start_server`. The as-written sends are `PyBridge.ServeCycleAsWritten`.
- `Serializer.Serialize` and `PyBridge.Deserialize`: model the corrected protobuf branches. `PyClient` with `Build.Corrected` uses both, and the as-written functions use them for the non-protobuf formats. `Serializer.Serialize` is also the TypeScript `serialize` behind `TsBridge.SendRequest`. `PyBridge.Deserialize` is also compared with the TypeScript one in `Comparison.DeserializersAgreeOutsideProtobufErrors`. The Python server never calls them: it receives and sends with `recv_json` and `send_json` (secure_bridge.py:156, 163). The client can run with either build (`PyClient.Build`).
- `TsBridge.NewBridge` and `TsBridge.NewBridgeFromClass`: `requests_total` is one counter per process (secureBridge.ts:18-22), and the constructor does not reset it. The model passes its current value in at construction and tracks it in the bridge. This is exact while one bridge serves per process; increments by other bridges in the same process are not modelled.
- `Comparison.ValidationDiffersOnlyOnExpiry` and `Comparison.ServersAgreeOnObjectRequests`: these claim agreement only when both JWT libraries give the same verdict. PyJWT accepts only HS256 (secure_bridge.py:115), while jsonwebtoken with no `algorithms` option accepts any HMAC algorithm (secureBridge.ts:78). `Comparison.AlgorithmMismatchSplitsServers` states what happens when they differ.
- `Comparison.DeserializersAgreeOutsideProtobufErrors`: this claims agreement only when both decoders give the same outcome. Python's `json.loads` and UTF-8 decoding (secure_bridge.py:140) differ from `JSON.parse` over `toString()` (secureBridge.ts:104) in their error messages and in how they handle invalid UTF-8. As written, the TypeScript protobuf branch throws a ReferenceError, where the corrected Python branch decodes.
- `Comparison.SumScenario`: test_bridge.py never gets as far as sending its request. `start_server` is a coroutine whose blocking `recv_json` (secure_bridge.py:156) never awaits. Once the server task starts, the event loop is stuck, so the `await asyncio.sleep(1)` at test_bridge.py:31 never resumes and `start_client` is never called. Even after that, the client connects to port 5556 while the server binds 5555. The lemma states what a server answers to the script's request.

## Findings

| source | as written | input that shows it | evidently intended | confidence | as-written member | corrected member |
|---|---|---|---|---|---|---|
| secure_bridge.py:164 | after the success reply is sent, the latency metric reads `start_time`, which is never assigned; the NameError is caught at line 170, whose handler issues a second send for the same request; a request/reply socket refuses that send, and the error it raises is not caught inside the loop | a request with a valid token for a registered operation whose handler returns | exactly one reply per request, with latency measured from a start time taken at the top of the cycle | not executed | `PyBridge.StartTimeDoubleReply` | `PyBridge.ServeLoop` |
| secure_bridge.py:123 | the protobuf branch calls `SerializeToString` on the dict being sent | `serialize({"operation": "sum"}, "protobuf")` | encode the message through the protobuf message class, like the other formats through their libraries | not executed | `PyBridge.ProtobufSerializeAlwaysFails` | `Serializer.Serialize` |
| secure_bridge.py:134 | `BridgeMessage` is neither defined nor imported, so a NameError escapes and the `except DecodeError` at line 137 is unreachable | `deserialize(b"\x00", "protobuf")` | a malformed protobuf payload raises "Protobuf deserialization error: " followed by the decoder's message | not executed | `PyBridge.ProtobufPrefixUnreachable` | `PyBridge.Deserialize` |
| secureBridge.ts:46 | `@BridgeHandler` stores into the class-level `constructor.handlers`, while `startServer` reads only the instance map `this.handlers` | a valid-token request for "sum" on a new `SecureBridge` | decorated methods are registered for dispatch | not executed | `TsBridge.DecoratedOperationUnknown` | `TsBridge.NewBridgeFromClass` |

=== FILE: comparison.dfy ===
/** How the two bridges relate, and the "sum" request of test_bridge.py served by each.
    Each side calls its own libraries, so each gets its own verifier and codec: PyJWT is
    told to accept HS256 only, jsonwebtoken accepts any HMAC algorithm, and the two JSON
    decoders word their errors differently. Where the libraries agree on an input, the
    lemmas say the bridges agree too, for all inputs; where they differ, the lemmas pin
    down exactly how. */
module Comparison {
  import opened Results
  import opened Values
  import opened Registry
  import opened Token
  import opened Serializer
  import PyBridge
  import TsBridge

  /** Given library verdicts that agree on the token, both validators accept exactly the
      same tokens with the same claims; on rejection the TypeScript message is always
      "Invalid JWT", while the Python message tells an expired token apart. */
  lemma ValidationDiffersOnlyOnExpiry(pyVerify: Verifier, tsVerify: Verifier, secret: string, token: Value)
    requires pyVerify(secret, token) == tsVerify(secret, token)
    ensures PyBridge.ValidateJwt(pyVerify, secret, token).Ok? <==> TsBridge.ValidateJwt(tsVerify, secret, token).Ok?
    ensures PyBridge.ValidateJwt(pyVerify, secret, token).Ok? ==>
      PyBridge.ValidateJwt(pyVerify, secret, token) == TsBridge.ValidateJwt(tsVerify, secret, token)
    ensures TsBridge.ValidateJwt(tsVerify, secret, token).Err? ==>
      && TsBridge.ValidateJwt(tsVerify, secret, token).message == InvalidJwt
      && (PyBridge.ValidateJwt(pyVerify, secret, token).message == PyBridge.JwtExpired <==>
          pyVerify(secret, token).Expired?)
  {
  }

  /** For an object request whose operation is not a list or dict, two servers with the
      same handlers and secret, whose libraries give the same verdict on its token, send
      the same reply, except that an expired token is "JWT expired" in Python and
      "Invalid JWT" in TypeScript. */
  lemma ServersAgreeOnObjectRequests(pb: PyBridge.Bridge, tb: TsBridge.Bridge, pyVerify: Verifier, tsVerify: Verifier,
                                     inbound: Inbound)
    requires pb.handlers == tb.handlers && pb.jwtSecret == tb.jwtSecret
    requires inbound.Received? && inbound.message.Obj?
    requires !Get(inbound.message.fields, "operation").Arr? && !Get(inbound.message.fields, "operation").Obj?
    requires pyVerify(pb.jwtSecret, Get(inbound.message.fields, "token")) ==
             tsVerify(tb.jwtSecret, Get(inbound.message.fields, "token"))
    ensures !pyVerify(pb.jwtSecret, Get(inbound.message.fields, "token")).Expired? ==>
      PyBridge.ServeCycle(pb, pyVerify, inbound) == TsBridge.ServeCycle(tb, tsVerify, inbound).reply
    ensures pyVerify(pb.jwtSecret, Get(inbound.message.fields, "token")).Expired? ==>
      && PyBridge.ServeCycle(pb, pyVerify, inbound) == Error(PyBridge.JwtExpired)
      && TsBridge.ServeCycle(tb, tsVerify, inbound).reply == Error(InvalidJwt)
  {
  }

  /** Where the libraries disagree the servers do too: a token that only jsonwebtoken
      accepts (signed with HS384 or HS512, say) is refused by the Python server and
      dispatched by the TypeScript one. */
  lemma AlgorithmMismatchSplitsServers(pb: PyBridge.Bridge, tb: TsBridge.Bridge, pyVerify: Verifier, tsVerify: Verifier,
                                       inbound: Inbound)
    requires pb.handlers == tb.handlers && pb.jwtSecret == tb.jwtSecret
    requires inbound.Received? && inbound.message.Obj?
    requires pyVerify(pb.jwtSecret, Get(inbound.message.fields, "token")).Invalid?
    requires tsVerify(tb.jwtSecret, Get(inbound.message.fields, "token")).Valid?
    ensures PyBridge.ServeCycle(pb, pyVerify, inbound) == Error(InvalidJwt)
    ensures TsBridge.ServeCycle(tb, tsVerify, inbound).reply ==
      TsBridge.Dispatch(tb.handlers, Get(inbound.message.fields, "operation"), Get(inbound.message.fields, "data"))
    ensures TsBridge.ServeCycle(tb, tsVerify, inbound).bridge.requestCount == tb.requestCount + 1
  {
  }

  /** Given decoders that agree on the payload, the two deserializers agree except on a
      malformed protobuf payload, which only the Python one prefixes. */
  lemma DeserializersAgreeOutsideProtobufErrors(pyCodec: Codec, tsCodec: Codec, data: Bytes, format: string)
    requires forall f :: format == FormatName(f) ==> pyCodec.decode(f, data) == tsCodec.decode(f, data)
    ensures !(format == "protobuf" && pyCodec.decode(Protobuf, data).DecodeError?) ==>
      PyBridge.Deserialize(pyCodec, data, format) == TsBridge.Deserialize(tsCodec, data, format)
    ensures format == "protobuf" && pyCodec.decode(Protobuf, data).DecodeError? ==>
      && TsBridge.Deserialize(tsCodec, data, format) == Err(pyCodec.decode(Protobuf, data).message)
      && PyBridge.Deserialize(pyCodec, data, format) ==
         Err(PyBridge.ProtobufErrorPrefix + pyCodec.decode(Protobuf, data).message)
  {
  }

  /** The "sum" handler the scenario registers, `data["a"] + data["b"]` wrapped as
      `{"result": ...}`, exact for integer operands; every other input is answered with a
      placeholder exception. */
  function SumHandler(data: Value): HandlerOutcome
  {
    if && data.Obj? && "a" in data.fields && "b" in data.fields
       && data.fields["a"].Int? && data.fields["b"].Int?
    then Returned(Obj(map["result" := Int(data.fields["a"].i + data.fields["b"].i)]))
    else Raised("unsupported operands")
  }

  function SumRequest(token: Value): Inbound
  {
    Received(Obj(map[
      "operation" := Str("sum"),
      "token" := token,
      "data" := Obj(map["a" := Int(5), "b" := Int(3)])]))
  }

  /** The "sum" request of test_bridge.py, served by each bridge with "sum" registered.
      A token the library accepts gets `{"status": "success", "data": {"result": 8}}` (the
      script itself only prints whatever comes back). A token it rejects never reaches the
      handler: an expired one is "JWT expired" in Python, and any other rejected token,
      such as the script's "test_token", which is not a JWT at all, is "Invalid JWT" on
      both sides. TypeScript counts the request only when the token verified. */
  lemma SumScenario(pyVerify: Verifier, tsVerify: Verifier, secret: string, token: Value, now: real, requestsSoFar: nat)
    ensures var b := PyBridge.RegisterHandler(PyBridge.NewBridge(secret, now), "sum", SumHandler);
      pyVerify(secret, token).Valid? ==>
        ReplyObject(PyBridge.ServeCycle(b, pyVerify, SumRequest(token))) ==
          Obj(map["status" := Str("success"), "data" := Obj(map["result" := Int(8)])])
    ensures var b := PyBridge.RegisterHandler(PyBridge.NewBridge(secret, now), "sum", SumHandler);
      pyVerify(secret, token).Expired? ==>
        PyBridge.ServeCycle(b, pyVerify, SumRequest(token)) == Error(PyBridge.JwtExpired)
    ensures var b := PyBridge.RegisterHandler(PyBridge.NewBridge(secret, now), "sum", SumHandler);
      pyVerify(secret, token).Invalid? ==>
        PyBridge.ServeCycle(b, pyVerify, SumRequest(token)) == Error(InvalidJwt)
    ensures var t := TsBridge.RegisterHandler(TsBridge.NewBridge(secret, requestsSoFar), "sum", SumHandler);
      tsVerify(secret, token).Valid? ==>
        && ReplyObject(TsBridge.ServeCycle(t, tsVerify, SumRequest(token)).reply) ==
           Obj(map["status" := Str("success"), "data" := Obj(map["result" := Int(8)])])
        && TsBridge.ServeCycle(t, tsVerify, SumRequest(token)).bridge.requestCount == requestsSoFar + 1
    ensures var t := TsBridge.RegisterHandler(TsBridge.NewBridge(secret, requestsSoFar), "sum", SumHandler);
      !tsVerify(secret, token).Valid? ==>
        && TsBridge.ServeCycle(t, tsVerify, SumRequest(token)).reply == Error(InvalidJwt)
        && TsBridge.ServeCycle(t, tsVerify, SumRequest(token)).bridge.requestCount == requestsSoFar
  {
  }
}

=== FILE: py_bridge.dfy ===
/** The server side of the Python bridge (`SecureBridge` in secure_bridge.py): the handler
    registry, token validation, secret rotation, serialization dispatch and the reply
    decision of one cycle of the serve loop. Sockets, CURVE keys, metrics and logging are
    not part of this model. */
module PyBridge {
  import opened Results
  import opened Values
  import opened Registry
  import opened Token
  import opened Serializer

  /** The part of a bridge instance the request path reads and writes. */
  datatype Bridge = Bridge(handlers: HandlerMap, jwtSecret: string, lastRotation: real)

  /** A freshly constructed bridge: no handlers, the configured secret, rotated "now". */
  function NewBridge(jwtSecret: string, now: real): (b: Bridge)
    ensures b.handlers == map[] && b.jwtSecret == jwtSecret && b.lastRotation == now
  {
    Bridge(map[], jwtSecret, now)
  }

  const JwtExpired := "JWT expired"
  const ProtobufErrorPrefix := "Protobuf deserialization error: "

  /** `register_handler`: `op` now maps to `h`, every other registration and the token
      state are untouched. */
  function RegisterHandler(b: Bridge, op: string, h: Handler): (r: Bridge)
    ensures op in r.handlers && r.handlers[op] == h
    ensures r.handlers.Keys == b.handlers.Keys + {op}
    ensures forall o :: o in b.handlers && o != op ==> r.handlers[o] == b.handlers[o]
    ensures r.jwtSecret == b.jwtSecret && r.lastRotation == b.lastRotation
  {
    b.(handlers := Register(b.handlers, op, h))
  }

  /** `validate_jwt`: the claims of a valid token; an expired token is reported as such
      (the library's expiry error is a special case of its invalid-token error and is
      caught first); every other failure is "Invalid JWT". */
  function ValidateJwt(verify: Verifier, secret: string, token: Value): (r: Result<Value>)
    ensures r.Ok? <==> verify(secret, token).Valid?
    ensures r.Ok? ==> r.value == verify(secret, token).claims
    ensures verify(secret, token).Expired? ==> r == Err(JwtExpired)
    ensures verify(secret, token).Invalid? ==> r == Err(InvalidJwt)
  {
    match verify(secret, token)
    case Valid(claims) => Ok(claims)
    case Expired => Err(JwtExpired)
    case Invalid => Err(InvalidJwt)
  }

  /** One step of the rotation task: a new random secret (`secrets.token_urlsafe(64)`) and the time it was
      installed. Nothing else changes. */
  function RotateSecret(b: Bridge, newSecret: string, now: real): (r: Bridge)
    ensures r.jwtSecret == newSecret && r.lastRotation == now
    ensures r.handlers == b.handlers
  {
    b.(jwtSecret := newSecret, lastRotation := now)
  }

  /** The Python type name of a decoded JSON value, as exception messages print it. */
  function TypeName(v: Value): string
  {
    match v
    case Null => "NoneType"
    case Bool(_) => "bool"
    case Int(_) => "int"
    case Float(_) => "float"
    case Str(_) => "str"
    case Arr(_) => "list"
    case Obj(_) => "dict"
  }

  // ---------------------------------------------------------------------------
  // Serialization dispatch

  /** `deserialize`, with the protobuf branch decoding through the protobuf library: the
      decoded value, the unsupported-format error, a protobuf `DecodeError` re-raised with
      the protobuf prefix, and every other library error passed through unchanged. */
  function Deserialize(codec: Codec, data: Bytes, format: string): (r: Result<Value>)
    ensures !IsFormatName(format) ==> r == Err(UnsupportedFormat)
    ensures forall f :: format == FormatName(f) && codec.decode(f, data).Decoded? ==>
      r == Ok(codec.decode(f, data).value)
    ensures format == "protobuf" && codec.decode(Protobuf, data).DecodeError? ==>
      r == Err(ProtobufErrorPrefix + codec.decode(Protobuf, data).message)
    ensures forall f :: format == FormatName(f) && codec.decode(f, data).OtherError? ==>
      r == Err(codec.decode(f, data).message)
    ensures forall f :: format == FormatName(f) && f != Protobuf && codec.decode(f, data).DecodeError? ==>
      r == Err(codec.decode(f, data).message)
    ensures format != "protobuf" && IsFormatName(format) && r.Err? ==>
      exists f :: format == FormatName(f) && r.message == codec.decode(f, data).message
  {
    var f :- ParseFormat(format);
    match codec.decode(f, data)
    case Decoded(v) => Ok(v)
    case DecodeError(m) => if f == Protobuf then Err(ProtobufErrorPrefix + m) else Err(m)
    case OtherError(m) => Err(m)
  }

  /** `serialize` exactly as written: the protobuf branch calls `SerializeToString` on the
      decoded value itself, which no JSON value has. */
  function SerializeAsWritten(codec: Codec, data: Value, format: string): (r: Result<Bytes>)
    ensures format == "protobuf" ==> r.Err?
    ensures format != "protobuf" ==> r == Serializer.Serialize(codec, data, format)
  {
    if format == "protobuf" then Err("'" + TypeName(data) + "' object has no attribute 'SerializeToString'")
    else Serializer.Serialize(codec, data, format)
  }

  /** `deserialize` exactly as written: the protobuf branch instantiates `BridgeMessage`,
      which the module never defines or imports, so a `NameError` (not a protobuf
      `DecodeError`) escapes the branch. */
  function DeserializeAsWritten(codec: Codec, data: Bytes, format: string): (r: Result<Value>)
    ensures format == "protobuf" ==> r.Err?
    ensures format != "protobuf" ==> r == Deserialize(codec, data, format)
  {
    if format == "protobuf" then Err("name 'BridgeMessage' is not defined")
    else Deserialize(codec, data, format)
  }

  /** As written, protobuf serialization fails for every message the client can pass,
      even with a protobuf encoder that would succeed. */
  lemma ProtobufSerializeAlwaysFails(codec: Codec, data: Value)
    requires codec.encode(Protobuf, data).Ok?
    ensures SerializeAsWritten(codec, data, "protobuf").Err?
    ensures Serializer.Serialize(codec, data, "protobuf") == codec.encode(Protobuf, data)
  {
  }

  /** As written, the protobuf prefix is never produced: a malformed protobuf payload
      yields the `NameError`, while the corrected dispatch yields the prefixed error. */
  lemma ProtobufPrefixUnreachable(codec: Codec, data: Bytes)
    requires codec.decode(Protobuf, data).DecodeError?
    ensures DeserializeAsWritten(codec, data, "protobuf") == Err("name 'BridgeMessage' is not defined")
    ensures Deserialize(codec, data, "protobuf") == Err(ProtobufErrorPrefix + codec.decode(Protobuf, data).message)
  {
  }

  // ---------------------------------------------------------------------------
  // The serve loop

  /** The error an unregistered operation value produces: the membership test itself raises
      for unhashable values (lists, dicts); anything else is simply absent. */
  function LookupError(operation: Value): string
  {
    match operation
    case Arr(_) => "unhashable type: 'list'"
    case Obj(_) => "unhashable type: 'dict'"
    case _ => UnknownOperation
  }

  /** Dispatch of an authorized request: the registered handler runs on the request's data
      and its outcome is the reply; an unregistered operation runs nothing. */
  function Dispatch(handlers: HandlerMap, operation: Value, data: Value): (r: Reply)
    ensures Registered(handlers, operation) ==> r == ReplyOf(handlers[operation.s](data))
    ensures !Registered(handlers, operation) ==> r == Error(LookupError(operation))
    ensures r.Success? <==> Registered(handlers, operation) && handlers[operation.s](data).Returned?
  {
    match operation
    case Str(s) =>
      if s in handlers then ReplyOf(handlers[s](data)) else Error(UnknownOperation)
    case _ => Error(LookupError(operation))
  }

  predicate IsObjectRequest(inbound: Inbound)
  {
    inbound.Received? && inbound.message.Obj?
  }

  /** A field of a request object, read with `message.get`. */
  function Field(inbound: Inbound, key: string): Value
    requires IsObjectRequest(inbound)
  {
    Get(inbound.message.fields, key)
  }

  /** The request carries a token that verifies under the bridge's current secret. */
  predicate Authorized(b: Bridge, verify: Verifier, inbound: Inbound)
  {
    IsObjectRequest(inbound) && verify(b.jwtSecret, Field(inbound, "token")).Valid?
  }

  /** The one reply a cycle of `start_server` sends for one received message. The token is
      validated before the operation is looked up: a failing token is answered with the
      validation message and no handler runs. A message that is not a JSON object fails on
      `message.get`, and a decoder error is answered with its own text. */
  function ServeCycle(b: Bridge, verify: Verifier, inbound: Inbound): (r: Reply)
    ensures inbound.Undecodable? ==> r == Error(inbound.reason)
    ensures inbound.Received? && !inbound.message.Obj? ==>
      r == Error("'" + TypeName(inbound.message) + "' object has no attribute 'get'")
    ensures IsObjectRequest(inbound) && verify(b.jwtSecret, Field(inbound, "token")).Expired? ==>
      r == Error(JwtExpired)
    ensures IsObjectRequest(inbound) && verify(b.jwtSecret, Field(inbound, "token")).Invalid? ==>
      r == Error(InvalidJwt)
    ensures Authorized(b, verify, inbound) ==>
      r == Dispatch(b.handlers, Field(inbound, "operation"), Field(inbound, "data"))
    ensures r.Success? <==>
      && Authorized(b, verify, inbound)
      && Registered(b.handlers, Field(inbound, "operation"))
      && b.handlers[Field(inbound, "operation").s](Field(inbound, "data")).Returned?
  {
    match inbound
    case Undecodable(reason) => Error(reason)
    case Received(message) =>
      if !message.Obj? then
        Error("'" + TypeName(message) + "' object has no attribute 'get'")
      else
        match ValidateJwt(verify, b.jwtSecret, Get(message.fields, "token"))
        case Err(m) => Error(m)
        case Ok(_) => Dispatch(b.handlers, Get(message.fields, "operation"), Get(message.fields, "data"))
  }

  /** A request whose token fails gets the same reply whatever handlers are registered:
      the handler table is never consulted. */
  lemma TokenFailureIgnoresHandlers(b1: Bridge, b2: Bridge, verify: Verifier, inbound: Inbound)
    requires b1.jwtSecret == b2.jwtSecret
    requires !Authorized(b1, verify, inbound)
    ensures ServeCycle(b1, verify, inbound) == ServeCycle(b2, verify, inbound)
    ensures ServeCycle(b1, verify, inbound).Error?
  {
  }

  /** After a rotation every validation uses the new secret: a token that verified under
      the old secret but not under the new one no longer reaches dispatch. */
  lemma RotationRevokesOldTokens(b: Bridge, verify: Verifier, newSecret: string, now: real, inbound: Inbound)
    requires IsObjectRequest(inbound)
    requires verify(b.jwtSecret, Field(inbound, "token")).Valid?
    requires verify(newSecret, Field(inbound, "token")).Invalid?
    ensures ServeCycle(b, verify, inbound) == Dispatch(b.handlers, Field(inbound, "operation"), Field(inbound, "data"))
    ensures ServeCycle(RotateSecret(b, newSecret, now), verify, inbound) == Error(InvalidJwt)
  {
  }

  /** Rotation leaves dispatch alone: a request authorized under the new secret gets the
      reply the registered handlers give it. */
  lemma RotationKeepsRegistrations(b: Bridge, verify: Verifier, newSecret: string, now: real, inbound: Inbound)
    requires IsObjectRequest(inbound)
    requires verify(newSecret, Field(inbound, "token")).Valid?
    ensures ServeCycle(RotateSecret(b, newSecret, now), verify, inbound) ==
      Dispatch(b.handlers, Field(inbound, "operation"), Field(inbound, "data"))
  {
  }

  /** The `while True` loop of `start_server` over a stream of received messages: no
      single request ends it, and every message gets exactly the one reply its cycle
      decides. */
  method ServeLoop(b: Bridge, verify: Verifier, inbound: seq<Inbound>) returns (replies: seq<Reply>)
    ensures |replies| == |inbound|
    ensures forall i :: 0 <= i < |inbound| ==> replies[i] == ServeCycle(b, verify, inbound[i])
  {
    replies := [];
    for i := 0 to |inbound|
      invariant |replies| == i
      invariant forall k :: 0 <= k < i ==> replies[k] == ServeCycle(b, verify, inbound[k])
    {
      replies := replies + [ServeCycle(b, verify, inbound[i])];
    }
  }

  /** The sends one cycle issues as written. On the success path the latency metric reads
      `start_time`, which is never assigned, so the `NameError` is caught by the generic
      handler, which issues a second, error send after the success reply. */
  function ServeCycleAsWritten(b: Bridge, verify: Verifier, inbound: Inbound): (sent: seq<Reply>)
    ensures 1 <= |sent| <= 2 && sent[0] == ServeCycle(b, verify, inbound)
    ensures |sent| == 2 <==> ServeCycle(b, verify, inbound).Success?
  {
    var first := ServeCycle(b, verify, inbound);
    if first.Success? then [first, Error("name 'start_time' is not defined")] else [first]
  }

  /** As written, every request that succeeds is followed by a second send, breaking the
      one-reply-per-request discipline of the request/reply socket. */
  lemma StartTimeDoubleReply(b: Bridge, verify: Verifier, inbound: Inbound)
    requires Authorized(b, verify, inbound)
    requires Registered(b.handlers, Field(inbound, "operation"))
    requires b.handlers[Field(inbound, "operation").s](Field(inbound, "data")).Returned?
    ensures ServeCycleAsWritten(b, verify, inbound) ==
      [Success(b.handlers[Field(inbound, "operation").s](Field(inbound, "data")).value),
       Error("name 'start_time' is not defined")]
  {
  }
}

=== FILE: py_client.dfy ===
/** The client side of the Python bridge (`start_client` in secure_bridge.py): up to three
    attempts of serialize, send, receive and deserialize, with exponential backoff and
    jitter after every failed attempt. The transport and the random jitter are inputs; the
    sleeps are recorded as the list of delays taken. */
module PyClient {
  import opened Results
  import opened Values
  import opened Serializer
  import PyBridge

  const MaxAttempts: nat := 3
  const BackoffCap: real := 10.0
  const MaxRetriesExceeded := "Max retries exceeded"

  /** A draw of `random.uniform(0, 1)`, which computes `0 + 1 * random()` and so lies in
      [0, 1); the closed interval is a harmless superset. */
  type Jitter = j: real | 0.0 <= j <= 1.0

  /** What the caller gets back after exhausting the attempts. */
  function MaxRetriesReply(): Value
  {
    ReplyObject(Error(MaxRetriesExceeded))
  }

  /** The result of one call: the value returned to the caller, how many attempts were
      made, and the delay slept after each failed attempt, in order. */
  datatype ClientRun = ClientRun(response: Value, attempts: nat, delays: seq<real>)

  function Pow2(k: nat): (p: nat)
    ensures p >= 1
  {
    if k == 0 then 1 else 2 * Pow2(k - 1)
  }

  lemma {:induction false} Pow2Doubles(i: nat, j: nat)
    requires i < j
    ensures 2 * Pow2(i) <= Pow2(j)
  {
    if j > i + 1 {
      Pow2Doubles(i, j - 1);
    }
  }

  /** `min(2 ** attempt + random.uniform(0, 1), 10)`. */
  function BackoffDelay(attempt: nat, jitter: Jitter): (d: real)
    ensures d <= BackoffCap
    ensures d <= Pow2(attempt) as real + jitter
    ensures d == BackoffCap || d == Pow2(attempt) as real + jitter
    ensures d >= Pow2(attempt) as real || d == BackoffCap
  {
    var raw := Pow2(attempt) as real + jitter;
    if raw <= BackoffCap then raw else BackoffCap
  }

  /** Delays never decrease from one failed attempt to a later one, whatever the jitter:
      doubling outgrows a jitter of at most one second. */
  lemma BackoffMonotone(i: nat, j: nat, ji: Jitter, jj: Jitter)
    requires i < j
    ensures BackoffDelay(i, ji) <= BackoffDelay(j, jj)
  {
    Pow2Doubles(i, j);
  }

  /** Within the three attempts the cap is never reached: the longest delay is 2^2 + 1. */
  lemma CapUnreached(attempt: nat, jitter: Jitter)
    requires attempt < MaxAttempts
    ensures BackoffDelay(attempt, jitter) == Pow2(attempt) as real + jitter <= 5.0
  {
  }

  /** Which protobuf branches the client's `serialize` and `deserialize` run: the ones
      written in secure_bridge.py, which always fail, or the corrected ones that go
      through the protobuf library. The other formats are the same in both. */
  datatype Build = AsWritten | Corrected

  function SerializeIn(build: Build, codec: Codec, message: Value, format: string): Result<Bytes>
  {
    if build.AsWritten? then PyBridge.SerializeAsWritten(codec, message, format)
    else Serializer.Serialize(codec, message, format)
  }

  function DeserializeIn(build: Build, codec: Codec, data: Bytes, format: string): Result<Value>
  {
    if build.AsWritten? then PyBridge.DeserializeAsWritten(codec, data, format)
    else PyBridge.Deserialize(codec, data, format)
  }

  /** One attempt: serialize (inside the retried block, so an unsupported format fails the
      attempt), exchange over the socket, deserialize the reply. With the as-written
      protobuf branches, a protobuf attempt always fails. */
  function Attempt(build: Build, codec: Codec, message: Value, format: string, exchange: Exchange): (r: Result<Value>)
    ensures !IsFormatName(format) ==> r == Err(UnsupportedFormat)
    ensures build.AsWritten? && format == "protobuf" ==> r.Err?
    ensures r.Ok? ==>
      && exchange.Replied?
      && SerializeIn(build, codec, message, format).Ok?
      && r == DeserializeIn(build, codec, exchange.response, format)
    ensures exchange.TransportError? && SerializeIn(build, codec, message, format).Ok? ==>
      r == Err(exchange.message)
    ensures exchange.Replied? && SerializeIn(build, codec, message, format).Ok? ==>
      r == DeserializeIn(build, codec, exchange.response, format)
    ensures format != "protobuf" && exchange.Replied? && Serializer.Serialize(codec, message, format).Ok? ==>
      r == PyBridge.Deserialize(codec, exchange.response, format)
  {
    var _ :- SerializeIn(build, codec, message, format);
    match exchange
    case TransportError(m) => Err(m)
    case Replied(response) => DeserializeIn(build, codec, response, format)
  }

  /** `start_client`: the decoded reply of the first attempt that succeeds; after three
      failed attempts, the "Max retries exceeded" error object instead of an exception.
      A delay is slept after every failed attempt, the last one included. With the
      as-written protobuf branches, a protobuf call always ends in "Max retries exceeded". */
  method StartClient(build: Build, codec: Codec, message: Value, format: string, exchanges: seq<Exchange>, jitter: seq<Jitter>)
    returns (run: ClientRun)
    requires |exchanges| == MaxAttempts && |jitter| == MaxAttempts
    ensures 1 <= run.attempts <= MaxAttempts
    ensures forall i :: 0 <= i < run.attempts - 1 ==> Attempt(build, codec, message, format, exchanges[i]).Err?
    ensures Attempt(build, codec, message, format, exchanges[run.attempts - 1]).Ok? ==>
      && run.response == Attempt(build, codec, message, format, exchanges[run.attempts - 1]).value
      && |run.delays| == run.attempts - 1
    ensures Attempt(build, codec, message, format, exchanges[run.attempts - 1]).Err? ==>
      && run.attempts == MaxAttempts
      && run.response == MaxRetriesReply()
      && |run.delays| == MaxAttempts
    ensures forall i :: 0 <= i < |run.delays| ==> run.delays[i] == BackoffDelay(i, jitter[i])
    ensures forall i :: 0 <= i < |run.delays| ==> Pow2(i) as real <= run.delays[i] <= BackoffCap
    ensures forall i, j :: 0 <= i < j < |run.delays| ==> run.delays[i] <= run.delays[j]
    ensures !IsFormatName(format) ==> run.response == MaxRetriesReply() && run.attempts == MaxAttempts
    ensures build.AsWritten? && format == "protobuf" ==>
      run.response == MaxRetriesReply() && run.attempts == MaxAttempts && |run.delays| == MaxAttempts
  {
    var delays: seq<real> := [];
    var attempt: nat := 0;
    while attempt < MaxAttempts
      invariant attempt <= MaxAttempts
      invariant |delays| == attempt
      invariant forall i :: 0 <= i < attempt ==> Attempt(build, codec, message, format, exchanges[i]).Err?
      invariant forall i :: 0 <= i < attempt ==> delays[i] == BackoffDelay(i, jitter[i])
      invariant forall i :: 0 <= i < attempt ==> Pow2(i) as real <= delays[i]
      invariant forall i, j :: 0 <= i < j < attempt ==> delays[i] <= delays[j]
    {
      var outcome := Attempt(build, codec, message, format, exchanges[attempt]);
      if outcome.Ok? {
        return ClientRun(outcome.value, attempt + 1, delays);
      }
      var delay := BackoffDelay(attempt, jitter[attempt]);
      CapUnreached(attempt, jitter[attempt]);
      forall i | 0 <= i < attempt
        ensures delays[i] <= delay
      {
        BackoffMonotone(i, attempt, jitter[i], jitter[attempt]);
      }
      delays := delays + [delay];
      attempt := attempt + 1;
    }
    return ClientRun(MaxRetriesReply(), MaxAttempts, delays);
  }
}

=== FILE: registry.dfy ===
/** The operation registry: a name-keyed table of handlers, shared in shape by both
    bridges (`self.handlers` in Python, `this.handlers` in TypeScript). */
module Registry {
  import opened Values
  import opened Results

  /** What running a handler on a request's data produces: a result value, or the message
      of the exception it raised. */
  datatype HandlerOutcome = Returned(value: Value) | Raised(message: string)

  /** A business-logic handler, supplied by the embedding application. */
  type Handler = Value -> HandlerOutcome

  type HandlerMap = map<string, Handler>

  /** The error both bridges answer an operation name with when nothing is registered
      under it. */
  const UnknownOperation := "Unknown operation"

  /** Whether an operation value names a registered handler. Only a string can equal one
      of the table's string keys. */
  predicate Registered(handlers: HandlerMap, operation: Value)
  {
    operation.Str? && operation.s in handlers
  }

  /** Registration: the name now maps to the new handler, replacing any earlier one, and
      every other name keeps the handler it had. */
  function Register(handlers: HandlerMap, op: string, h: Handler): (r: HandlerMap)
    ensures op in r && r[op] == h
    ensures r.Keys == handlers.Keys + {op}
    ensures forall o :: o in handlers && o != op ==> r[o] == handlers[o]
  {
    handlers[op := h]
  }

  /** The handler registered under a name, if any. */
  function Lookup(handlers: HandlerMap, op: string): (r: Option<Handler>)
    ensures r.Some? <==> op in handlers
    ensures r.Some? ==> r.value == handlers[op]
  {
    if op in handlers then Some(handlers[op]) else None
  }

  /** Last write wins: after registering `h` under `op`, looking up `op` finds `h`, and
      looking up any other name finds what it found before. */
  lemma LookupAfterRegister(handlers: HandlerMap, op: string, h: Handler, q: string)
    ensures Lookup(Register(handlers, op, h), q) == if q == op then Some(h) else Lookup(handlers, q)
  {
  }

  /** Registering twice under one name is the same as registering only the second handler. */
  lemma RegisterOverwrites(handlers: HandlerMap, op: string, h1: Handler, h2: Handler)
    ensures Register(Register(handlers, op, h1), op, h2) == Register(handlers, op, h2)
  {
  }

  /** The reply a handler's outcome turns into: its result as a success, its exception's
      message as an error. */
  function ReplyOf(o: HandlerOutcome): Reply
  {
    match o
    case Returned(v) => Success(v)
    case Raised(m) => Error(m)
  }
}

=== FILE: results.dfy ===
/** Failure-compatible wrappers shared by both bridges. Every error the bridges raise or
    catch is reduced to its message text (`str(e)` in Python, `error.message` in TypeScript),
    so a failure carries exactly one string. */
module Results {

  /** Either a value or the message of the exception that was raised instead. */
  datatype Result<+T> = Ok(value: T) | Err(message: string) {

    predicate IsFailure() {
      Err?
    }

    function PropagateFailure<U>(): Result<U>
      requires Err?
    {
      Err(message)
    }

    function Extract(): T
      requires Ok?
    {
      value
    }
  }

  datatype Option<+T> = None | Some(value: T)
}

=== FILE: serializer.dfy ===
/** Serialization-format dispatch, shared by both bridges, and the library oracles it
    dispatches to. The byte encodings themselves belong to the json, msgpack and
    protobuf libraries and stay opaque. */
module Serializer {
  import opened Values
  import opened Results

  newtype byte = b: int | 0 <= b < 256

  type Bytes = seq<byte>

  /** The three accepted wire formats. */
  datatype Format = Protobuf | Json | Msgpack

  const UnsupportedFormat := "Unsupported serialization format"

  /** The name a caller passes to select a format. */
  function FormatName(f: Format): string
  {
    match f
    case Protobuf => "protobuf"
    case Json => "json"
    case Msgpack => "msgpack"
  }

  predicate IsFormatName(name: string)
  {
    name == "protobuf" || name == "json" || name == "msgpack"
  }

  /** The format a name selects; any other name is refused with the unsupported-format
      error. */
  function ParseFormat(name: string): (r: Result<Format>)
    ensures r.Ok? <==> IsFormatName(name)
    ensures r.Ok? ==> FormatName(r.value) == name
    ensures r.Err? ==> r.message == UnsupportedFormat
  {
    if name == "protobuf" then Ok(Protobuf)
    else if name == "json" then Ok(Json)
    else if name == "msgpack" then Ok(Msgpack)
    else Err(UnsupportedFormat)
  }

  /** Names and formats correspond one to one. */
  lemma ParseFormatName(f: Format)
    ensures ParseFormat(FormatName(f)) == Ok(f)
  {
  }

  /** What a decoding library call produces. `DecodeError` is the protobuf runtime's
      `DecodeError` exception; any other exception is `OtherError`. */
  datatype Decoding = Decoded(value: Value) | DecodeError(message: string) | OtherError(message: string)

  /** The encoding libraries, one entry per format. */
  datatype Codec = Codec(encode: (Format, Value) -> Result<Bytes>, decode: (Format, Bytes) -> Decoding)

  /** What one send-and-receive over the client socket produces: the peer's reply bytes, or
      the message of the transport error. */
  datatype Exchange = Replied(response: Bytes) | TransportError(message: string)

  /** `serialize`: the named format's encoder, or the unsupported-format error. Both
      bridges dispatch the same way; the protobuf entry encodes through the protobuf
      library like the other two. */
  function Serialize(codec: Codec, data: Value, format: string): (r: Result<Bytes>)
    ensures !IsFormatName(format) ==> r == Err(UnsupportedFormat)
    ensures forall f :: format == FormatName(f) ==> r == codec.encode(f, data)
  {
    var f :- ParseFormat(format);
    codec.encode(f, data)
  }
}

=== FILE: token.dfy ===
/** The authorization token check. Signature verification belongs to the JWT library
    (HS256 under the bridge's current shared secret); the model receives its verdict. */
module Token {
  import opened Values

  /** The library's verdict on one token under one secret: the decoded claims, an expired
      token, or any other verification failure (bad signature, malformed token, missing
      token). */
  datatype TokenCheck = Valid(claims: Value) | Expired | Invalid

  /** The verification oracle: secret and token in, verdict out. Being a function of the
      secret, it makes a rotated secret govern every later validation. */
  type Verifier = (string, Value) -> TokenCheck

  /** The error both bridges answer a token with when the library rejects it for any
      reason other than expiry. */
  const InvalidJwt := "Invalid JWT"
}

=== FILE: ts_bridge.dfy ===
/** The TypeScript bridge (`SecureBridge` in secureBridge.ts): the instance handler map,
    the `@BridgeHandler` decorator's class-level map, token validation, serialization
    dispatch, the `startServer` cycle with its request counter, and the client path
    through `sendRequest` and `startClient`. Sockets, the opossum breaker's internals,
    metrics and logging are not part of this model. */
module TsBridge {
  import opened Results
  import opened Values
  import opened Registry
  import opened Token
  import opened Serializer

  /** The part of a bridge instance the request path reads and writes. `requestCount` is
      the current value of the `requests_total` counter summed over its operation labels;
      that counter is created once per process, not per instance, so a bridge starts from
      whatever value it already holds. `clientConnected` says whether `clientSocket` has
      been created. */
  datatype Bridge = Bridge(handlers: HandlerMap, jwtSecret: string, requestCount: nat, clientConnected: bool)

  /** The static `handlers` slot the decorator creates on the class, absent until the first
      decorated method is seen. */
  datatype ClassMeta = ClassMeta(handlers: Option<HandlerMap>)

  /** What one cycle of `startServer` sends and the bridge state it leaves. */
  datatype Cycle = Cycle(reply: Reply, bridge: Bridge)

  /** The replies a serve loop sends and the bridge state it leaves. */
  datatype LoopRun = LoopRun(replies: seq<Reply>, bridge: Bridge)

  /** What `startClient` returns and the bridge state it leaves. */
  datatype ClientCall = ClientCall(response: Value, bridge: Bridge)

  /** The outcome of `circuitBreaker.fire`'s admission: run the request, or reject with the
      breaker's own error (open circuit, timeout). */
  datatype Gate = Admit | Reject(message: string)

  const NotInitialized := "Client socket not initialized"

  /** A freshly constructed bridge: an empty instance handler map, no sockets, and the
      process-wide request counter at the value `requestsSoFar` it already has; the
      constructor does not reset it. */
  function NewBridge(jwtSecret: string, requestsSoFar: nat): (b: Bridge)
    ensures b.handlers == map[] && b.jwtSecret == jwtSecret
    ensures b.requestCount == requestsSoFar && !b.clientConnected
  {
    Bridge(map[], jwtSecret, requestsSoFar, false)
  }

  /** `@BridgeHandler(op)` applied to a method `h`: creates the class-level map on first use
      and sets `op` in it. It writes nothing else, and in particular no instance map. */
  function BridgeHandler(meta: ClassMeta, op: string, h: Handler): (r: ClassMeta)
    ensures r.handlers.Some? && op in r.handlers.value && r.handlers.value[op] == h
    ensures meta.handlers.None? ==> r.handlers.value.Keys == {op}
    ensures meta.handlers.Some? ==> r.handlers.value == Register(meta.handlers.value, op, h)
  {
    match meta.handlers
    case None => ClassMeta(Some(map[op := h]))
    case Some(m) => ClassMeta(Some(Register(m, op, h)))
  }

  /** `registerHandler`: `Map.set` on the instance map; the last registration wins, the
      other entries and the rest of the state are unchanged. */
  function RegisterHandler(b: Bridge, op: string, h: Handler): (r: Bridge)
    ensures op in r.handlers && r.handlers[op] == h
    ensures r.handlers.Keys == b.handlers.Keys + {op}
    ensures forall o :: o in b.handlers && o != op ==> r.handlers[o] == b.handlers[o]
    ensures r.jwtSecret == b.jwtSecret && r.requestCount == b.requestCount
    ensures r.clientConnected == b.clientConnected
  {
    b.(handlers := Register(b.handlers, op, h))
  }

  /** `validateJwt`: the decoded payload of a valid token; every verification failure,
      expiry included, becomes the single error "Invalid JWT". */
  function ValidateJwt(verify: Verifier, secret: string, token: Value): (r: Result<Value>)
    ensures r.Ok? <==> verify(secret, token).Valid?
    ensures r.Ok? ==> r.value == verify(secret, token).claims
    ensures r.Err? ==> r.message == InvalidJwt
  {
    match verify(secret, token)
    case Valid(claims) => Ok(claims)
    case _ => Err(InvalidJwt)
  }

  /** `deserialize`: the named format's decoder, with any library error passed through by
      its message, or the unsupported-format error. */
  function Deserialize(codec: Codec, data: Bytes, format: string): (r: Result<Value>)
    ensures !IsFormatName(format) ==> r == Err(UnsupportedFormat)
    ensures forall f :: format == FormatName(f) && codec.decode(f, data).Decoded? ==>
      r == Ok(codec.decode(f, data).value)
    ensures forall f :: format == FormatName(f) && !codec.decode(f, data).Decoded? ==>
      r == Err(codec.decode(f, data).message)
  {
    var f :- ParseFormat(format);
    match codec.decode(f, data)
    case Decoded(v) => Ok(v)
    case DecodeError(m) => Err(m)
    case OtherError(m) => Err(m)
  }

  /** Property access `message.key` on a parsed JSON value: reading from `null` throws, an
      absent key or a non-object reads `undefined` (modelled as `Null`). */
  function Member(message: Value, key: string): Value
    requires !message.Null?
  {
    if message.Obj? then Get(message.fields, key) else Null
  }

  /** The dispatch of an authorized request: the handler found by `Map.get` runs on the
      request's data; with none, "Unknown operation" is thrown and becomes the reply. */
  function Dispatch(handlers: HandlerMap, operation: Value, data: Value): (r: Reply)
    ensures Registered(handlers, operation) ==> r == ReplyOf(handlers[operation.s](data))
    ensures !Registered(handlers, operation) ==> r == Error(UnknownOperation)
    ensures r.Success? <==> Registered(handlers, operation) && handlers[operation.s](data).Returned?
  {
    if !operation.Str? then Error(UnknownOperation)
    else
      match Lookup(handlers, operation.s)
      case Some(h) => ReplyOf(h(data))
      case None => Error(UnknownOperation)
  }

  /** The request carries a token that verifies under the bridge's current secret. */
  predicate Authorized(b: Bridge, verify: Verifier, inbound: Inbound)
  {
    && inbound.Received?
    && !inbound.message.Null?
    && verify(b.jwtSecret, Member(inbound.message, "token")).Valid?
  }

  /** One iteration of `startServer`: validation precedes the request counter and the
      handler lookup, so a bad token is answered with "Invalid JWT", runs no handler and
      leaves the counter alone; every thrown error is caught and answered, and iteration
      goes on. */
  function ServeCycle(b: Bridge, verify: Verifier, inbound: Inbound): (c: Cycle)
    ensures c.bridge.handlers == b.handlers && c.bridge.jwtSecret == b.jwtSecret
    ensures c.bridge.clientConnected == b.clientConnected
    ensures c.bridge.requestCount == b.requestCount + (if Authorized(b, verify, inbound) then 1 else 0)
    ensures inbound.Undecodable? ==> c.reply == Error(inbound.reason)
    ensures inbound.Received? && inbound.message.Null? ==>
      c.reply == Error("Cannot read properties of null (reading 'token')")
    ensures inbound.Received? && !inbound.message.Null? && !Authorized(b, verify, inbound) ==>
      c.reply == Error(InvalidJwt)
    ensures Authorized(b, verify, inbound) ==>
      c.reply == Dispatch(b.handlers, Member(inbound.message, "operation"), Member(inbound.message, "data"))
  {
    match inbound
    case Undecodable(reason) => Cycle(Error(reason), b)
    case Received(message) =>
      if message.Null? then
        Cycle(Error("Cannot read properties of null (reading 'token')"), b)
      else
        match ValidateJwt(verify, b.jwtSecret, Member(message, "token"))
        case Err(m) => Cycle(Error(m), b)
        case Ok(_) =>
          var counted := b.(requestCount := b.requestCount + 1);
          Cycle(Dispatch(b.handlers, Member(message, "operation"), Member(message, "data")), counted)
  }

  /** A request whose token fails gets the same reply whatever handlers are registered,
      and the bridge state is left exactly as it was. */
  lemma TokenFailureIgnoresHandlers(b1: Bridge, b2: Bridge, verify: Verifier, inbound: Inbound)
    requires b1.jwtSecret == b2.jwtSecret
    requires !Authorized(b1, verify, inbound)
    ensures ServeCycle(b1, verify, inbound).reply == ServeCycle(b2, verify, inbound).reply
    ensures ServeCycle(b1, verify, inbound).bridge == b1
  {
  }

  /** The number of messages among the first `n` of a stream whose token verifies under
      the bridge's secret: at most `n`, and exactly `n` when every one of them verifies. */
  function AuthorizedCount(b: Bridge, verify: Verifier, inbound: seq<Inbound>, n: nat): (count: nat)
    requires n <= |inbound|
    ensures count <= n
    ensures count == n <==> forall i :: 0 <= i < n ==> Authorized(b, verify, inbound[i])
  {
    if n == 0 then 0
    else
      var lastCounted := if Authorized(b, verify, inbound[n - 1]) then 1 else 0;
      AuthorizedCount(b, verify, inbound, n - 1) + lastCounted
  }

  /** A prefix of a stream in which no token verifies leaves the request counter
      untouched, whatever comes later in the stream. */
  lemma {:induction false} NoAuthorizedNoCount(b: Bridge, verify: Verifier, inbound: seq<Inbound>, n: nat)
    requires n <= |inbound|
    requires forall i :: 0 <= i < n ==> !Authorized(b, verify, inbound[i])
    ensures AuthorizedCount(b, verify, inbound, n) == 0
  {
    if n > 0 {
      NoAuthorizedNoCount(b, verify, inbound, n - 1);
    }
  }

  /** The `for await` loop of `startServer` over a stream of received messages: every
      message gets the reply its cycle decides, and the counter grows by exactly the number
      of messages whose token verified. */
  method ServeLoop(b: Bridge, verify: Verifier, inbound: seq<Inbound>) returns (run: LoopRun)
    ensures |run.replies| == |inbound|
    ensures forall i :: 0 <= i < |inbound| ==> run.replies[i] == ServeCycle(b, verify, inbound[i]).reply
    ensures run.bridge.handlers == b.handlers && run.bridge.jwtSecret == b.jwtSecret
    ensures run.bridge.clientConnected == b.clientConnected
    ensures run.bridge.requestCount == b.requestCount + AuthorizedCount(b, verify, inbound, |inbound|)
  {
    var replies := [];
    var state := b;
    for i := 0 to |inbound|
      invariant |replies| == i
      invariant state == b.(requestCount := state.requestCount)
      invariant state.requestCount == b.requestCount + AuthorizedCount(b, verify, inbound, i)
      invariant forall k :: 0 <= k < i ==> replies[k] == ServeCycle(b, verify, inbound[k]).reply
    {
      var c := ServeCycle(state, verify, inbound[i]);
      assert Authorized(state, verify, inbound[i]) == Authorized(b, verify, inbound[i]);
      replies := replies + [c.reply];
      state := c.bridge;
    }
    run := LoopRun(replies, state);
  }

  /** `sendRequest`: refuses without a client socket; otherwise serialize, exchange and
      deserialize, any failure surfacing as the thrown message. */
  function SendRequest(b: Bridge, codec: Codec, message: Value, format: string, exchange: Exchange): (r: Result<Value>)
    ensures !b.clientConnected ==> r == Err(NotInitialized)
    ensures b.clientConnected && !IsFormatName(format) ==> r == Err(UnsupportedFormat)
    ensures b.clientConnected && Serializer.Serialize(codec, message, format).Ok? && exchange.TransportError? ==>
      r == Err(exchange.message)
    ensures b.clientConnected && Serializer.Serialize(codec, message, format).Err? ==>
      r == Err(Serializer.Serialize(codec, message, format).message)
    ensures b.clientConnected && Serializer.Serialize(codec, message, format).Ok? && exchange.Replied? ==>
      r == Deserialize(codec, exchange.response, format)
    ensures r.Ok? ==>
      && b.clientConnected
      && Serializer.Serialize(codec, message, format).Ok?
      && exchange.Replied?
      && r == Deserialize(codec, exchange.response, format)
  {
    if !b.clientConnected then Err(NotInitialized)
    else
      var _ :- Serializer.Serialize(codec, message, format);
      match exchange
      case TransportError(m) => Err(m)
      case Replied(response) => Deserialize(codec, response, format)
  }

  /** `startClient`: connects the client socket, then fires the breaker; any rejection or
      request error is returned as `{status: "error", message}` instead of thrown. One
      attempt only; there is no retry loop on this side. */
  function StartClient(b: Bridge, codec: Codec, message: Value, format: string, gate: Gate, exchange: Exchange): (c: ClientCall)
    ensures c.bridge == b.(clientConnected := true)
    ensures gate.Reject? ==> c.response == ReplyObject(Error(gate.message))
    ensures gate.Admit? && SendRequest(c.bridge, codec, message, format, exchange).Ok? ==>
      c.response == SendRequest(c.bridge, codec, message, format, exchange).value
    ensures gate.Admit? && SendRequest(c.bridge, codec, message, format, exchange).Err? ==>
      c.response == ReplyObject(Error(SendRequest(c.bridge, codec, message, format, exchange).message))
    ensures gate.Admit? && !IsFormatName(format) ==> c.response == ReplyObject(Error(UnsupportedFormat))
  {
    var connected := b.(clientConnected := true);
    match gate
    case Reject(m) => ClientCall(ReplyObject(Error(m)), connected)
    case Admit =>
      match SendRequest(connected, codec, message, format, exchange)
      case Ok(v) => ClientCall(v, connected)
      case Err(m) => ClientCall(ReplyObject(Error(m)), connected)
  }

  /** Because `startClient` creates the socket first, the uninitialized-socket guard of
      `sendRequest` never fires on this path: the outcome is the same whether or not a
      socket existed before. */
  lemma StartClientIgnoresPriorSocket(b: Bridge, codec: Codec, message: Value, format: string, gate: Gate, exchange: Exchange)
    ensures StartClient(b, codec, message, format, gate, exchange).response ==
      StartClient(b.(clientConnected := false), codec, message, format, gate, exchange).response
    ensures gate.Admit? && exchange.Replied? && Serializer.Serialize(codec, message, format).Ok? ==>
      StartClient(b, codec, message, format, gate, exchange).response ==
        match Deserialize(codec, exchange.response, format)
        case Ok(v) => v
        case Err(m) => ReplyObject(Error(m))
  {
  }

  // ---------------------------------------------------------------------------
  // The decorator never reaches dispatch

  /** As written, an operation decorated with `@BridgeHandler` is not dispatched: the
      decorator fills the class map while a new instance starts with an empty instance map,
      which is the only map `startServer` reads. */
  lemma DecoratedOperationUnknown(meta: ClassMeta, op: string, h: Handler, secret: string, requestsSoFar: nat,
                                  verify: Verifier, inbound: Inbound)
    requires inbound.Received? && inbound.message.Obj?
    requires Member(inbound.message, "operation") == Str(op)
    requires verify(secret, Member(inbound.message, "token")).Valid?
    ensures BridgeHandler(meta, op, h).handlers.value[op] == h
    ensures ServeCycle(NewBridge(secret, requestsSoFar), verify, inbound).reply == Error(UnknownOperation)
  {
  }

  /** Construction with the decorator's registrations copied into the instance map. */
  function NewBridgeFromClass(meta: ClassMeta, jwtSecret: string, requestsSoFar: nat): (b: Bridge)
    ensures meta.handlers.Some? ==> b.handlers == meta.handlers.value
    ensures meta.handlers.None? ==> b.handlers == map[]
    ensures b.jwtSecret == jwtSecret && b.requestCount == requestsSoFar && !b.clientConnected
  {
    match meta.handlers
    case None => NewBridge(jwtSecret, requestsSoFar)
    case Some(m) => NewBridge(jwtSecret, requestsSoFar).(handlers := m)
  }

  /** With the registrations copied, a decorated operation is dispatched to its method. */
  lemma DecoratedOperationDispatched(meta: ClassMeta, op: string, h: Handler, secret: string, requestsSoFar: nat,
                                     verify: Verifier, inbound: Inbound)
    requires inbound.Received? && inbound.message.Obj?
    requires Member(inbound.message, "operation") == Str(op)
    requires verify(secret, Member(inbound.message, "token")).Valid?
    ensures ServeCycle(NewBridgeFromClass(BridgeHandler(meta, op, h), secret, requestsSoFar), verify, inbound).reply ==
      ReplyOf(h(Member(inbound.message, "data")))
  {
  }
}

=== FILE: values.dfy ===
/** The structured data the bridges exchange: decoded JSON values, the reply records the
    server sends back, and what one blocking receive on the server socket yields. */
module Values {
  import opened Results

  /** A decoded JSON value. `Float` stands for a JSON number with a fraction or exponent,
      which Python decodes to `float`; integral numbers decode to `int`. */
  datatype Value =
    | Null
    | Bool(b: bool)
    | Int(i: int)
    | Float(r: real)
    | Str(s: string)
    | Arr(items: seq<Value>)
    | Obj(fields: map<string, Value>)

  /** `dict.get(key)`: the entry under `key`, or `None` when there is none. A JSON `null`
      and a missing key therefore look the same to the reader. */
  function Get(fields: map<string, Value>, key: string): Value
  {
    if key in fields then fields[key] else Null
  }

  /** The reply record of one request cycle. */
  datatype Reply = Success(data: Value) | Error(message: string)

  /** The JSON object a reply is sent as: `{"status": "success", "data": ...}` or
      `{"status": "error", "message": ...}`. The `status` field alone tells a success from
      an error, and the reply can be read back from the object by the receiving side. */
  function ReplyObject(r: Reply): (v: Value)
    ensures v.Obj? && "status" in v.fields
    ensures v.fields["status"] == Str("success") <==> r.Success?
    ensures v.fields["status"] == Str("error") <==> r.Error?
    ensures r.Success? ==> v.fields.Keys == {"status", "data"}
    ensures r.Error? ==> v.fields.Keys == {"status", "message"}
    ensures ReadReply(v) == Some(r)
  {
    match r
    case Success(d) => Obj(map["status" := Str("success"), "data" := d])
    case Error(m) => Obj(map["status" := Str("error"), "message" := Str(m)])
  }

  /** How a receiver reads a reply object: a `"success"` status with its `data`, an
      `"error"` status with a string `message`; any other value is not a reply. */
  function ReadReply(v: Value): Option<Reply>
  {
    if !v.Obj? || "status" !in v.fields then None
    else if v.fields["status"] == Str("success") && "data" in v.fields then
      Some(Success(v.fields["data"]))
    else if v.fields["status"] == Str("error") && "message" in v.fields && v.fields["message"].Str? then
      Some(Error(v.fields["message"].s))
    else None
  }

  /** Two different replies are never sent as the same object. */
  lemma ReplyObjectInjective(r1: Reply, r2: Reply)
    requires ReplyObject(r1) == ReplyObject(r2)
    ensures r1 == r2
  {
  }

  /** What one receive on the server socket hands to the request cycle: the decoded
      message, or the text of the exception the JSON decoder raised. */
  datatype Inbound = Undecodable(reason: string) | Received(message: Value)
}
